=== FILE: README.md ===
# Article router of a password-sharing API, in Dafny

This project models the decision logic of the article router
`routes/api/articles.js` of an Express/Mongoose back end. In this
application, articles carry comments and also *password entries*: candidate
values that users approve or disapprove of. The model covers four parts of
the router.

- **Vote state machine.** Four routes approve, unapprove, disapprove and
  undisapprove a password entry. Each route is modelled as the sequence of
  set operations its handler runs. The model proves that no user ends up in
  both the approvals and the disapprovals of an entry, whatever the sequence
  of requests.
- **Article listing query.** `GET /` and `GET /feed` are modelled. The author
  and favoriter filters use JavaScript truthiness; the tag filter applies
  whenever the parameter is present, even when empty. An unknown author
  is ignored, while an unknown favoriter yields nothing. Results are newest
  first. The skip/limit window follows MongoDB, where a limit of 0 means no
  limit, and the count is taken before the window.
- **Password listing order.** Entries are retrieved newest first and then
  stably sorted by rating, highest first. Within one rating they therefore
  stay newest first.
- **Ownership and child collections.**
  - Each route's refusals come in loader order: 404 from the parameter
    loaders, then 401, then 403.
  - Comments and password entries are appended on creation. On deletion they
    are pulled with Mongoose's `remove`, which removes every occurrence.
  - The favorites count is recomputed from all users.

The store is an immutable value `Model.Store`. Articles and users are
sequences in collection order. Comments and password entries are maps keyed
by id. Each mutating route is a pure function from a store to a
`Response`: either the next store with the response body, or a refusal
that leaves the store unchanged. Read-only routes return a `Result`.

Modules:

- `Common`: first match, pull, filter, populate, skip/limit window.
- `Sorting`: a stable sort with highest key first, and its grouping facts.
- `Model`: entities, the store, lookups and refusals.
- `Votes`: the four vote routes and their invariant.
- `ArticleRoutes`: read, create, update, delete and favorite of one article.
- `Children`: comments and password entries.
- `Listing`: `GET /` and `GET /feed`.

The router relies on a few methods of the Password, User and Article models
that are not part of this model. They are taken to have plain set semantics:

- `approve`, `unapprove`, `disapprove` and `undisapprove` insert the user into,
  or remove the user from, the entry's approvals or disapprovals.
- `favorite` and `unfavorite` insert the article into, or remove it from, the
  user's favorites.
- `updateFavoriteCount` counts the users whose favorites contain the article.
- An entry's rating is the number of its approvals minus the number of its
  disapprovals.

Behaviour kept as the code has it, though a reader might expect otherwise:

- The vote routes do not check that the entry belongs to the article in the
  URL. Their response body is the article, not the entry.
- Deleting a comment or entry pulls its id from the article in the URL,
  whether or not it belongs there, and removes the record.
- Update, comment deletion and entry deletion compare the token's id with
  the author. They never check that the token's user still exists.
- Update and article deletion read the id of the article's populated author
  (lines 180 and 213). When the author's user document is gone, that field
  is null and the handler throws before the ownership test: deletion
  answers a server error through its `.catch`, and update, whose chain has
  no `.catch`, sends no response. The model answers `Crashed` for both and
  leaves the store unchanged.
- The password listing refuses only a request without a token. A token whose
  user is gone is still served.
- A tag parameter is a filter even when it is empty. An empty author or
  favoriter name is ignored.

## Model

| member | source | states |
|---|---|---|
| Common.Without | routes/api/articles.js:319 | pulling an id leaves no copy of it and keeps exactly the other ids |
| Common.WithoutIsFilter | routes/api/articles.js:319 | pulling keeps the remaining ids in their order: the result is exactly the array with every copy of the id dropped |
| Common.WithoutCounts | routes/api/articles.js:365 | pulling removes every occurrence of the id and keeps every other element as often as it occurred |
| Common.WithoutAbsent | routes/api/articles.js:365 | pulling an id that is not in the array leaves it unchanged |
| Common.WithoutAppended | routes/api/articles.js:303-319 | appending a fresh id (as comment creation does) and then pulling it (as comment deletion does) gives back the original array |
| Common.WithoutSingle | routes/api/articles.js:319 | pulling an id that occurs once removes exactly its position; the other ids keep their order |
| Common.Resolve | routes/api/articles.js:385-397 | populating an id array yields exactly the documents of the resolvable ids, one per id, in array order; unresolvable ids are dropped |
| Common.FilterCounts | routes/api/articles.js:83 | a query keeps each matching document as often as it is stored and no other document |
| Common.Page | routes/api/articles.js:84-85 | skip/limit yields the elements from the offset on, at most `limit` of them when the limit is positive, all of them when it is 0 |
| Common.PageConcat | routes/api/articles.js:84-85 | two consecutive windows of size `l` make up the window of size `2l` at the first offset |
| Sorting.SortPermutes | routes/api/articles.js:404-406 | `Sorting.Sort`, the model of the newest-first sorts (lines 86, 274, 393) and of the rating sort, is a permutation of the elements it is given |
| Sorting.SortDescending | routes/api/articles.js:404-406 | after the sort by `b.rating - a.rating`, ratings never increase along the result |
| Sorting.SortKeepsGroups | routes/api/articles.js:404-406 | the sort is stable: for every rating, the entries with that rating appear in their input order |
| Sorting.GroupKeepsOrder | routes/api/articles.js:391-406 | the entries of one rating keep the order the retrieval gave them |
| Sorting.InsertGroup | routes/api/articles.js:404-406 | inserting an element puts it first among the elements with its key and leaves every other key's elements alone |
| Model.ArticleAt | routes/api/articles.js:10-20 | the `:article` loader finds the first article with the slug, and finds nothing exactly when no article has it |
| Model.UserAt | routes/api/articles.js:146-150 | `User.findById` finds the first user with the id, and finds nothing exactly when no user has it |
| Model.UserNamed | routes/api/articles.js:69-70 | `User.findOne({ username })` finds the first user with the name, and finds nothing exactly when no user has it |
| Model.Caller | routes/api/articles.js:146-150 | a route that requires a token has an acting user exactly when a token is present and its user exists |
| Votes.Cast | routes/api/articles.js:414-485 | each vote route changes only the acting user's membership in the two vote sets; approve leaves the user approving only, disapprove leaves the user disapproving only, and the two deletes each clear one set |
| Votes.CastKeepsExclusive | routes/api/articles.js:414-485 | every vote route keeps the approvals and disapprovals of an entry disjoint |
| Votes.CastIdempotent | routes/api/articles.js:414-485 | sending the same vote twice has the effect of sending it once |
| Votes.LastVoteWins | routes/api/articles.js:414-468 | after an approve or a disapprove, the user's standing does not depend on any earlier vote |
| Votes.CastFollowsTable | routes/api/articles.js:414-485 | the set operations move the acting user between neutral, approving and disapproving exactly as the transition table says; no other user's standing changes |
| Votes.CastShiftsRating | routes/api/articles.js:414-485 | a vote changes the rating by the change in the acting user's contribution (+1, 0 or -1) and nothing else |
| Votes.VoteRoute | routes/api/articles.js:414-485 | an unknown slug or entry answers 404; then a missing token or a vanished user answers 401; when the article, the entry and the caller all exist the vote succeeds, changes only the addressed entry, and answers the article |
| Votes.VoteRouteKeepsNoDoubleVotes | routes/api/articles.js:414-485 | a vote request on a store where no entry has a double vote leaves it so |
| Votes.VoteRouteIdempotent | routes/api/articles.js:414-485 | repeating a vote request leaves the store as after the first |
| Votes.Replay | routes/api/articles.js:414-485 | any sequence of vote requests changes only password entries, never which entries exist |
| Votes.ReplayKeepsNoDoubleVotes | routes/api/articles.js:414-485 | after any sequence of vote requests no user both approves and disapproves of any entry |
| ArticleRoutes.GetArticle | routes/api/articles.js:164-175 | reading answers the first article with the slug, as the `:article` loader finds it, and 404 exactly when no article has it |
| ArticleRoutes.CreateArticle | routes/api/articles.js:145-161 | creation answers 401 exactly when there is no acting user and succeeds otherwise, appending an article by the caller with the supplied fields, no children and count 0 |
| ArticleRoutes.ArticleRoundTrip | routes/api/articles.js:145-222 | creating an article under a fresh slug succeeds, deleting it as its author then succeeds, and the store is restored |
| ArticleRoutes.ApplyPatch | routes/api/articles.js:181-191 | an update replaces title, description and tag list exactly when each is supplied, and nothing else |
| ArticleRoutes.UpdateArticle | routes/api/articles.js:178-203 | an update answers 404, then 401 without a token; then it crashes exactly when the article's author no longer exists (the populated author is null); otherwise it answers 403 exactly when the token is not the author's, and the author's update succeeds and changes only that article |
| ArticleRoutes.UpdateChangesOnlySuppliedFields | routes/api/articles.js:178-203 | a refused update changes nothing; an accepted one changes only the supplied fields of the addressed article |
| ArticleRoutes.DeleteArticle | routes/api/articles.js:206-222 | a delete answers 404, then 401; then it fails with a server error exactly when the article's author no longer exists; otherwise it answers 403 exactly when the caller is not the author, and the author's delete succeeds, the article leaving the collection while the others keep their order |
| ArticleRoutes.DeleteRemovesArticle | routes/api/articles.js:206-222 | with unique ids, no article with the deleted id remains |
| ArticleRoutes.Favoriters | routes/api/articles.js:234-235 | the recomputed count is at most the number of users, and it is 0 exactly when no user has favorited the article |
| ArticleRoutes.FavoritersAfterReplace | routes/api/articles.js:234-235 | changing one user's favorites changes an article's count by that user's change alone |
| ArticleRoutes.SetFavorite | routes/api/articles.js:225-260 | favoriting answers 404, then 401; when the article and the caller exist it succeeds, only the caller's favorites gain or lose the article, and the article's count is recomputed |
| ArticleRoutes.SetFavoriteKeepsCounts | routes/api/articles.js:225-260 | with unique article ids, every article's count stays equal to its number of favoriters |
| ArticleRoutes.SetFavoriteCount | routes/api/articles.js:225-260 | a first favorite raises the count by one, a repeated one leaves it, and an unfavorite lowers it only if the user had favorited the article |
| ArticleRoutes.SetFavoriteIdempotent | routes/api/articles.js:225-260 | favoriting or unfavoriting twice has the effect of doing it once |
| Children.CreateComment | routes/api/articles.js:291-311 | comment creation answers 404, then 401; when the article and the caller exist it succeeds, storing a comment by the caller and appending its id to the article |
| Children.DeleteComment | routes/api/articles.js:313-333 | comment deletion answers 404 for the article, then 404 for the comment, then 401, then 403 exactly when the token is not the author's; the author's deletion succeeds, removing the record and pulling its id from the URL's article |
| Children.DeleteCommentRemovesOnlyIt | routes/api/articles.js:319 | deleting a comment whose id occurs once removes exactly that position from the article |
| Children.CommentRoundTrip | routes/api/articles.js:291-333 | creating a comment with a fresh id succeeds, deleting it as its author then succeeds, and the store is restored |
| Children.ListComments | routes/api/articles.js:263-288 | the comment listing answers 404 exactly when the slug is unknown and succeeds otherwise, with a permutation of the article's resolvable comments, newest first |
| Children.CreatePassword | routes/api/articles.js:336-357 | entry creation answers 404, then 401; when the article and the caller exist it succeeds, storing an entry by the caller with no votes and appending its id to the article |
| Children.DeletePassword | routes/api/articles.js:359-379 | entry deletion answers 404, 404, 401, then 403 exactly when the token is not the author's; the author's deletion succeeds, removing the record and pulling its id from the URL's article |
| Children.DeletePasswordRemovesOnlyIt | routes/api/articles.js:365 | deleting an entry whose id occurs once removes exactly that position from the article |
| Children.PasswordRoundTrip | routes/api/articles.js:336-379 | creating an entry with a fresh id succeeds, deleting it as its author then succeeds, and the store is restored |
| Children.EntryLifecycleKeepsNoDoubleVotes | routes/api/articles.js:336-379 | creating or deleting an entry keeps every entry free of double votes |
| Children.ListPasswords | routes/api/articles.js:382-411 | the entry listing answers 404 for an unknown slug, 401 only without a token, and a listing otherwise |
| Children.ListPasswordsOrder | routes/api/articles.js:382-411 | the entry listing is a permutation of the article's resolvable entries with ratings never increasing, and entries of equal rating are newest first, in retrieval order |
| Listing.CriteriaFor | routes/api/articles.js:65-81 | a tag filters whenever present; an author filters only when named and known; a favoriter restricts to that user's favorites, or to nothing when unknown; empty names are ignored |
| Listing.Ranked | routes/api/articles.js:65-86 | the ranked matches are exactly the stored articles that meet the filters (`Listing.Matches`: the tag in `tagList`, the author's id, the id among the favoriter's favorites), each as often as stored, newest first |
| Listing.ListArticles | routes/api/articles.js:47-103 | the count is the number of stored articles meeting the filters, before any sort or window; every listed article is one of them; the listing is newest first and at most `limit` long; it is the skip/limit window of the ranked matches |
| Listing.PageWithin | routes/api/articles.js:84-86 | a window of the newest-first matches holds only matches and is still newest first |
| Listing.DefaultWindow | routes/api/articles.js:49-50 | without limit and offset the listing is the newest twenty matches |
| Listing.TagFilter | routes/api/articles.js:65-67 | with a tag, every listed article carries it; with only a tag, the matches are exactly the stored articles that carry it |
| Listing.UnknownFavoriter | routes/api/articles.js:77-81 | a favoriter name that names nobody yields no articles and count 0 |
| Listing.UnknownAuthorIgnored | routes/api/articles.js:69-76 | an author name that names nobody gives the same listing as no author parameter |
| Listing.EmptyNamesIgnored | routes/api/articles.js:69-70 | empty author or favoriter names give the same listing as absent ones |
| Listing.ConsecutivePages | routes/api/articles.js:84-86 | for the same filters, the pages at offsets `o` and `o + l` together are the page of size `2l` at `o`: nothing skipped, nothing repeated |
| Listing.Feed | routes/api/articles.js:105-143 | the feed answers 401 exactly when there is no acting user and succeeds otherwise; it lists only stored articles by followed authors, is the skip/limit window of all of them in collection order, and counts all of them |

## Left out

- The `bbox` geo filter of `GET /` (lines 51-58) is left out, because it needs floating-point geometry over a location field that this model's articles do not have.
- `limit` and `offset` arrive as strings and pass through `Number(...)`. The model takes them as natural numbers, so non-numeric or negative values are not modelled.
- The order of equal timestamps is an assumption. MongoDB leaves the order of equal `createdAt` values unspecified; the model sorts stably, so ties keep their input order: collection order for `GET /`, and the order of the article's id array for the comment and entry listings.
- The stability of the rating sort (lines 404-406) is an assumption about the engine. `Array.prototype.sort` is stable only from ECMAScript 2019 on (V8 7.0, Node 11); older engines sorted arrays of more than 10 elements unstably. The model's sort is stable.
- `toJSONFor` is left out. Its projection of documents into response JSON, and the per-viewer `favorited` and `following` flags, belong to models that are not part of this model. Response bodies are the stored records.
- JWT verification in `auth.required` and `auth.optional` is left out. The token's payload id comes in as `identity: Option<UserId>`.
- New ids, slugs and timestamps come in as parameters, because the storage layer and the Article model produce them.
- Mass assignment through `new Article(body)`, `new Comment(body)` and `new Password(body)` is left out. Only the documented fields (title, description, body, tag list; comment body; entry value) are modelled.
- In the entry creation and vote routes, a 401 does not stop the promise chain. The model answers 401 and leaves the store unchanged.
  - In entry creation (lines 349-354), the next step appends an undefined reference to the article's entries and saves the article. Only then does the handler throw, at `password.toJSONFor(user)`. This extra reference is not modelled: how it is stored depends on Mongoose's casting of an undefined id.
  - In approve (lines 424-426) and disapprove (lines 461-463), the next step calls `undisapprove` or `unapprove` with an undefined user. Those methods belong to the Password model, which is not part of this model, so their effect with an undefined user is not modelled.
  - In unapprove (lines 444-446) and undisapprove (lines 481-483), the next step only builds the article body for a second answer and calls no vote method. Their store is unchanged, as modelled.
- Promise sequencing is left out. Each route is modelled as one atomic step, with no interleaving of concurrent requests. The update handler's missing `.catch` shows only as the `Crashed` answer described above.
- In the update route, a body without an `article` field makes the handler throw. The model's `Patch` always exists, so this crash is not modelled.
- Votes.Cast: assumes the Password model's four vote methods are atomic set insertions and removals, because that model is not part of this one.
- ArticleRoutes.SetFavorite: assumes `updateFavoriteCount` counts the users whose favorites contain the article, and that `favorite` and `unfavorite` are set operations on the user's favorites, because those models are not part of this one.
- The feed asks for no sort, so its order is whatever the storage returns. The model takes collection order.

=== FILE: article_routes.dfy ===
/** The single-article routes of `routes/api/articles.js`: read, create,
    owner-only partial update and delete, and favorite / unfavorite with the
    derived favorites count.

    `User.favorite`, `User.unfavorite` and `Article.updateFavoriteCount`
    belong to models that are not part of this model. They are taken to be
    set insertion into and removal from the user's `favorites`, and a
    recount of the users whose `favorites` contain the article. */
module ArticleRoutes {
  import opened Common
  import opened Model

  /** `GET /:article`: the article with the slug, or 404. */
  function GetArticle(s: Store, slug: string): (r: Result<Article>)
    ensures r.Ok? ==> r.value in s.articles && r.value.slug == slug
    ensures r.Ok? ==> ArticleAt(s, slug).Some? && r.value == s.articles[ArticleAt(s, slug).value]
    ensures r.Err? <==> forall j :: 0 <= j < |s.articles| ==> s.articles[j].slug != slug
    ensures r.Err? ==> r.denial == NotFound
  {
    match ArticleAt(s, slug)
    case None => Err(NotFound)
    case Some(i) => Ok(s.articles[i])
  }

  /** The article fields a request body supplies on creation. */
  datatype Draft = Draft(title: string, description: string, body: string, tagList: seq<string>)

  /** `POST /`: a new article by the caller, added to the collection. Its
      id, slug and timestamp are produced by the storage layer and the
      Article model and come in as parameters. */
  function CreateArticle(s: Store, identity: Option<UserId>, id: ArticleId, slug: string, createdAt: int, d: Draft): (r: Response<Article>)
    ensures Caller(s, identity).None? <==> r == Denied(Unauthorized)
    ensures Caller(s, identity).Some? ==> r.Done?
    ensures r.Done? ==>
      && identity.Some?
      && r.next == s.(articles := s.articles + [r.body])
      && r.body.author == identity.value
      && r.body.id == id && r.body.slug == slug && r.body.createdAt == createdAt
      && r.body.title == d.title && r.body.description == d.description
      && r.body.body == d.body && r.body.tagList == d.tagList
      && r.body.comments == [] && r.body.passwords == [] && r.body.favoritesCount == 0
  {
    match Caller(s, identity)
    case None => Denied(Unauthorized)
    case Some(ui) =>
      var a := Article(id, slug, s.users[ui].id, d.title, d.description, d.body, d.tagList, createdAt, [], [], 0);
      Done(s.(articles := s.articles + [a]), a)
  }

  /** The optional fields of an update body; an absent field is left alone. */
  datatype Patch = Patch(title: Option<string>, description: Option<string>, tagList: Option<seq<string>>)

  function ApplyPatch(a: Article, p: Patch): (r: Article)
    ensures r.title == (if p.title.Some? then p.title.value else a.title)
    ensures r.description == (if p.description.Some? then p.description.value else a.description)
    ensures r.tagList == (if p.tagList.Some? then p.tagList.value else a.tagList)
    ensures r == a.(title := r.title, description := r.description, tagList := r.tagList)
  {
    var a1 := if p.title.Some? then a.(title := p.title.value) else a;
    var a2 := if p.description.Some? then a1.(description := p.description.value) else a1;
    if p.tagList.Some? then a2.(tagList := p.tagList.value) else a2
  }

  /** The `:article` loader populates the author; when the author's user
      document is gone the populated field is null, and a handler that reads
      its `_id` throws. */
  predicate AuthorGone(s: Store, i: nat)
    requires i < |s.articles|
  {
    UserAt(s, s.articles[i].author).None?
  }

  /** `PUT /:article`: only the author may update, and only the supplied
      fields among title, description and tag list change. The ownership
      test compares the token's id with the populated author, so an article
      whose author is gone makes the handler throw; the token's own user is
      not checked. */
  function UpdateArticle(s: Store, slug: string, identity: Option<UserId>, p: Patch): (r: Response<Article>)
    ensures ArticleAt(s, slug).None? ==> r == Denied(NotFound)
    ensures ArticleAt(s, slug).Some? && identity.None? ==> r == Denied(Unauthorized)
    ensures (ArticleAt(s, slug).Some? && identity.Some?) ==>
      (r == Denied(Crashed) <==> AuthorGone(s, ArticleAt(s, slug).value))
    ensures (ArticleAt(s, slug).Some? && identity.Some? && !AuthorGone(s, ArticleAt(s, slug).value)) ==>
      (r == Denied(Forbidden) <==> s.articles[ArticleAt(s, slug).value].author != identity.value)
    ensures (ArticleAt(s, slug).Some? && identity.Some? && !AuthorGone(s, ArticleAt(s, slug).value) &&
             s.articles[ArticleAt(s, slug).value].author == identity.value) ==> r.Done?
    ensures r.Done? ==>
      ArticleAt(s, slug).Some? &&
      var i := ArticleAt(s, slug).value;
      && r.body == ApplyPatch(s.articles[i], p)
      && r.next == s.(articles := s.articles[i := r.body])
  {
    match ArticleAt(s, slug)
    case None => Denied(NotFound)
    case Some(i) =>
      if identity.None? then Denied(Unauthorized)
      else if AuthorGone(s, i) then Denied(Crashed)
      else if s.articles[i].author != identity.value then Denied(Forbidden)
      else
        var a := ApplyPatch(s.articles[i], p);
        Done(s.(articles := s.articles[i := a]), a)
  }

  /** A refused update leaves the store as it was; an accepted one changes
      nothing but the supplied fields of the addressed article. */
  lemma UpdateChangesOnlySuppliedFields(s: Store, slug: string, identity: Option<UserId>, p: Patch)
    ensures var r := UpdateArticle(s, slug, identity, p);
            && (r.Denied? ==> After(s, r) == s)
            && (r.Done? ==>
                 var i := ArticleAt(s, slug).value;
                 var a := s.articles[i];
                 var b := After(s, r).articles[i];
                 && |After(s, r).articles| == |s.articles|
                 && (forall j :: 0 <= j < |s.articles| && j != i ==> After(s, r).articles[j] == s.articles[j])
                 && b.id == a.id && b.slug == a.slug && b.author == a.author && b.body == a.body
                 && b.createdAt == a.createdAt && b.comments == a.comments && b.passwords == a.passwords
                 && b.favoritesCount == a.favoritesCount
                 && (p.title.None? ==> b.title == a.title)
                 && (p.description.None? ==> b.description == a.description)
                 && (p.tagList.None? ==> b.tagList == a.tagList))
  {
  }

  /** `DELETE /:article`: 401 without a token or when the token's user is
      gone, a server error when the article's author is gone, 403 for anyone
      but the author; otherwise the article leaves the collection and the
      others keep their order. */
  function DeleteArticle(s: Store, slug: string, identity: Option<UserId>): (r: Response<()>)
    ensures ArticleAt(s, slug).None? ==> r == Denied(NotFound)
    ensures ArticleAt(s, slug).Some? && Caller(s, identity).None? ==> r == Denied(Unauthorized)
    ensures (ArticleAt(s, slug).Some? && Caller(s, identity).Some?) ==>
      (r == Denied(Crashed) <==> AuthorGone(s, ArticleAt(s, slug).value))
    ensures (ArticleAt(s, slug).Some? && Caller(s, identity).Some? && !AuthorGone(s, ArticleAt(s, slug).value)) ==>
      (r == Denied(Forbidden) <==> s.articles[ArticleAt(s, slug).value].author != identity.value)
    ensures (ArticleAt(s, slug).Some? && Caller(s, identity).Some? &&
             s.articles[ArticleAt(s, slug).value].author == identity.value) ==> r.Done?
    ensures r.Done? ==>
      ArticleAt(s, slug).Some? &&
      var i := ArticleAt(s, slug).value;
      && r.next.users == s.users && r.next.comments == s.comments && r.next.passwords == s.passwords
      && |r.next.articles| == |s.articles| - 1
      && (forall j :: 0 <= j < i ==> r.next.articles[j] == s.articles[j])
      && (forall j :: i < j < |s.articles| ==> r.next.articles[j - 1] == s.articles[j])
  {
    match ArticleAt(s, slug)
    case None => Denied(NotFound)
    case Some(i) =>
      match Caller(s, identity)
      case None => Denied(Unauthorized)
      case Some(_) =>
        if AuthorGone(s, i) then Denied(Crashed)
        else if s.articles[i].author != identity.value then Denied(Forbidden)
        else Done(s.(articles := s.articles[..i] + s.articles[i + 1..]), ())
  }

  /** With unique ids, the deleted article is gone from the collection. */
  lemma DeleteRemovesArticle(s: Store, slug: string, identity: Option<UserId>)
    requires UniqueArticleIds(s)
    ensures var r := DeleteArticle(s, slug, identity);
            r.Done? ==> forall b :: b in r.next.articles ==> b.id != s.articles[ArticleAt(s, slug).value].id
  {
    var r := DeleteArticle(s, slug, identity);
    if r.Done? {
      var i := ArticleAt(s, slug).value;
      forall b | b in r.next.articles
        ensures b.id != s.articles[i].id
      {
        var k :| 0 <= k < |r.next.articles| && r.next.articles[k] == b;
        if k < i {
          assert b == s.articles[k];
        } else {
          assert b == s.articles[k + 1];
        }
      }
    }
  }

  /** Creating an article under a slug no article has, then deleting it as
      its author, restores the store exactly. */
  lemma ArticleRoundTrip(s: Store, identity: Option<UserId>, id: ArticleId, slug: string, createdAt: int, d: Draft)
    requires Caller(s, identity).Some? && ArticleAt(s, slug).None?
    ensures CreateArticle(s, identity, id, slug, createdAt, d).Done?
    ensures var s1 := CreateArticle(s, identity, id, slug, createdAt, d).next;
            DeleteArticle(s1, slug, identity).Done?
    ensures var s1 := After(s, CreateArticle(s, identity, id, slug, createdAt, d));
            After(s1, DeleteArticle(s1, slug, identity)) == s
  {
    var s1 := CreateArticle(s, identity, id, slug, createdAt, d).next;
    var n := |s.articles|;
    assert s1.articles[n].slug == slug;
    assert forall j :: 0 <= j < n ==> s1.articles[j] == s.articles[j];
    assert ArticleAt(s1, slug) == Some(n);
    assert Caller(s1, identity) == Caller(s, identity);
    assert s1.articles[..n] + s1.articles[n + 1..] == s.articles;
  }

  /** The number of users whose favorites contain the article. */
  function Favoriters(users: seq<User>, id: ArticleId): (n: nat)
    ensures n <= |users|
    ensures n == 0 <==> forall j :: 0 <= j < |users| ==> id !in users[j].favorites
  {
    if |users| == 0 then 0
    else
      assert forall j :: 1 <= j < |users| ==> users[j] == users[1..][j - 1];
      (if id in users[0].favorites then 1 else 0) + Favoriters(users[1..], id)
  }

  function Mark(u: User, id: ArticleId): nat
  {
    if id in u.favorites then 1 else 0
  }

  /** Replacing one user changes the count by that user's change alone. */
  lemma {:induction false} FavoritersAfterReplace(users: seq<User>, i: nat, u: User, id: ArticleId)
    requires i < |users|
    ensures Favoriters(users[i := u], id) == Favoriters(users, id) - Mark(users[i], id) + Mark(u, id)
  {
    if i > 0 {
      FavoritersAfterReplace(users[1..], i - 1, u, id);
      assert users[i := u][1..] == users[1..][i - 1 := u];
    }
  }

  /** Counter correctness: every article's cached count is the number of
      users who favorited it. */
  predicate CountsConsistent(s: Store)
  {
    forall j :: 0 <= j < |s.articles| ==> s.articles[j].favoritesCount == Favoriters(s.users, s.articles[j].id)
  }

  /** `POST /:article/favorite` (`add`) and `DELETE /:article/favorite`:
      the caller's favorites gain or lose the article, then the article's
      count is recomputed from all users; the body is the updated article. */
  function SetFavorite(s: Store, slug: string, identity: Option<UserId>, add: bool): (r: Response<Article>)
    ensures ArticleAt(s, slug).None? ==> r == Denied(NotFound)
    ensures ArticleAt(s, slug).Some? && Caller(s, identity).None? ==> r == Denied(Unauthorized)
    ensures ArticleAt(s, slug).Some? && Caller(s, identity).Some? ==> r.Done?
    ensures r.Done? ==>
      ArticleAt(s, slug).Some? && Caller(s, identity).Some? &&
      var i := ArticleAt(s, slug).value;
      var k := Caller(s, identity).value;
      var id := s.articles[i].id;
      && |r.next.users| == |s.users|
      && (forall j :: 0 <= j < |s.users| && j != k ==> r.next.users[j] == s.users[j])
      && r.next.users[k] == s.users[k].(favorites := r.next.users[k].favorites)
      && (add ==> r.next.users[k].favorites == s.users[k].favorites + {id})
      && (!add ==> r.next.users[k].favorites == s.users[k].favorites - {id})
      && r.body == s.articles[i].(favoritesCount := Favoriters(r.next.users, id))
      && r.next == s.(users := r.next.users, articles := s.articles[i := r.body])
  {
    match ArticleAt(s, slug)
    case None => Denied(NotFound)
    case Some(i) =>
      match Caller(s, identity)
      case None => Denied(Unauthorized)
      case Some(k) =>
        var id := s.articles[i].id;
        var u := s.users[k];
        var users := s.users[k := u.(favorites := if add then u.favorites + {id} else u.favorites - {id})];
        var a := s.articles[i].(favoritesCount := Favoriters(users, id));
        Done(s.(users := users, articles := s.articles[i := a]), a)
  }

  /** Favoriting keeps every article's count equal to its number of
      favoriters, provided article ids are unique. */
  lemma SetFavoriteKeepsCounts(s: Store, slug: string, identity: Option<UserId>, add: bool)
    requires UniqueArticleIds(s) && CountsConsistent(s)
    ensures CountsConsistent(After(s, SetFavorite(s, slug, identity, add)))
  {
    var r := SetFavorite(s, slug, identity, add);
    if r.Done? {
      var i := ArticleAt(s, slug).value;
      var k := Caller(s, identity).value;
      var id := s.articles[i].id;
      forall j | 0 <= j < |r.next.articles|
        ensures r.next.articles[j].favoritesCount == Favoriters(r.next.users, r.next.articles[j].id)
      {
        if j != i {
          var b := s.articles[j].id;
          assert b != id;
          assert r.next.users == s.users[k := r.next.users[k]];
          FavoritersAfterReplace(s.users, k, r.next.users[k], b);
        }
      }
    }
  }

  /** A first favorite by a user raises the count by exactly one; a repeated
      one leaves it; unfavoriting lowers it by one only if the user had
      favorited the article. */
  lemma SetFavoriteCount(s: Store, slug: string, identity: Option<UserId>, add: bool)
    requires CountsConsistent(s)
    ensures var r := SetFavorite(s, slug, identity, add);
            r.Done? ==>
              var i := ArticleAt(s, slug).value;
              var k := Caller(s, identity).value;
              var had := s.articles[i].id in s.users[k].favorites;
              r.body.favoritesCount ==
                s.articles[i].favoritesCount + (if add && !had then 1 else 0) - (if !add && had then 1 else 0)
  {
    var r := SetFavorite(s, slug, identity, add);
    if r.Done? {
      var k := Caller(s, identity).value;
      var i := ArticleAt(s, slug).value;
      assert r.next.users == s.users[k := r.next.users[k]];
      FavoritersAfterReplace(s.users, k, r.next.users[k], s.articles[i].id);
    }
  }

  /** Favoriting (or unfavoriting) twice leaves the store as doing it once. */
  lemma SetFavoriteIdempotent(s: Store, slug: string, identity: Option<UserId>, add: bool)
    ensures var s1 := After(s, SetFavorite(s, slug, identity, add));
            After(s1, SetFavorite(s1, slug, identity, add)) == s1
  {
    var r := SetFavorite(s, slug, identity, add);
    if r.Done? {
      var s1 := r.next;
      var i := ArticleAt(s, slug).value;
      assert s1.articles[i].slug == slug;
      assert forall j :: 0 <= j < |s1.articles| && j != i ==> s1.articles[j] == s.articles[j];
      assert ArticleAt(s1, slug) == ArticleAt(s, slug);
      assert Caller(s1, identity) == Caller(s, identity);
      var k := Caller(s, identity).value;
      var r2 := SetFavorite(s1, slug, identity, add);
      assert r2.next.users[k] == s1.users[k];
      assert r2.next.users == s1.users;
    }
  }
}

=== FILE: children.dfy ===
/** Comments and password entries hang off their article as ordered
    sequences of ids. This module models their creation (append to the
    sequence), their deletion by their author (pull from the sequence and
    drop the record), and the two listings: comments newest first, password
    entries by rating, highest first, with equal ratings newest first. */
module Children {
  import opened Common
  import opened Sorting
  import opened Model
  import opened Votes

  /** `POST /:article/comments`: 404 for an unknown slug, 401 without a
      token or when the token's user is gone; otherwise the comment is
      stored and its id appended to the article's comments. */
  function CreateComment(s: Store, slug: string, identity: Option<UserId>, id: CommentId, body: string, createdAt: int): (r: Response<Comment>)
    ensures ArticleAt(s, slug).None? ==> r == Denied(NotFound)
    ensures ArticleAt(s, slug).Some? && Caller(s, identity).None? ==> r == Denied(Unauthorized)
    ensures ArticleAt(s, slug).Some? && Caller(s, identity).Some? ==> r.Done?
    ensures r.Done? ==>
      ArticleAt(s, slug).Some? && identity.Some? &&
      var i := ArticleAt(s, slug).value;
      var a := s.articles[i];
      && r.body == Comment(id, a.id, identity.value, body, createdAt)
      && r.next.comments == s.comments[id := r.body]
      && r.next.articles == s.articles[i := a.(comments := a.comments + [id])]
      && r.next.users == s.users && r.next.passwords == s.passwords
  {
    match ArticleAt(s, slug)
    case None => Denied(NotFound)
    case Some(i) =>
      match Caller(s, identity)
      case None => Denied(Unauthorized)
      case Some(k) =>
        var a := s.articles[i];
        var c := Comment(id, a.id, s.users[k].id, body, createdAt);
        Done(s.(comments := s.comments[id := c],
                articles := s.articles[i := a.(comments := a.comments + [id])]), c)
  }

  /** `DELETE /:article/comments/:comment`: 404 for an unknown slug or
      comment, 401 without a token, 403 unless the token's id is the
      comment's author. Otherwise the id is pulled from the URL's article
      (whether or not the comment belongs to it) and the comment record is
      removed. No user lookup takes place. */
  function DeleteComment(s: Store, slug: string, id: CommentId, identity: Option<UserId>): (r: Response<()>)
    ensures ArticleAt(s, slug).None? ==> r == Denied(NotFound)
    ensures ArticleAt(s, slug).Some? && id !in s.comments ==> r == Denied(NotFound)
    ensures ArticleAt(s, slug).Some? && id in s.comments && identity.None? ==> r == Denied(Unauthorized)
    ensures ArticleAt(s, slug).Some? && id in s.comments && identity.Some? ==>
      (r == Denied(Forbidden) <==> s.comments[id].author != identity.value)
    ensures (ArticleAt(s, slug).Some? && id in s.comments && identity.Some? &&
             s.comments[id].author == identity.value) ==> r.Done?
    ensures r.Done? ==>
      ArticleAt(s, slug).Some? &&
      var i := ArticleAt(s, slug).value;
      var a := s.articles[i];
      && id !in r.next.comments
      && r.next.comments == s.comments - {id}
      && r.next.articles == s.articles[i := a.(comments := Without(a.comments, id))]
      && r.next.users == s.users && r.next.passwords == s.passwords
  {
    match ArticleAt(s, slug)
    case None => Denied(NotFound)
    case Some(i) =>
      if id !in s.comments then Denied(NotFound)
      else if identity.None? then Denied(Unauthorized)
      else if s.comments[id].author != identity.value then Denied(Forbidden)
      else
        var a := s.articles[i];
        Done(s.(comments := s.comments - {id},
                articles := s.articles[i := a.(comments := Without(a.comments, id))]), ())
  }

  /** Deleting a comment whose id occurs once in the article removes exactly
      that position; the other ids keep their order. */
  lemma DeleteCommentRemovesOnlyIt(s: Store, slug: string, id: CommentId, identity: Option<UserId>, p: nat)
    requires ArticleAt(s, slug).Some?
    requires var a := s.articles[ArticleAt(s, slug).value];
             p < |a.comments| && a.comments[p] == id &&
             forall j :: 0 <= j < |a.comments| && j != p ==> a.comments[j] != id
    ensures var r := DeleteComment(s, slug, id, identity);
            var a := s.articles[ArticleAt(s, slug).value];
            r.Done? ==> r.next.articles[ArticleAt(s, slug).value].comments == a.comments[..p] + a.comments[p + 1..]
  {
    WithoutSingle(s.articles[ArticleAt(s, slug).value].comments, p);
  }

  /** Creating a comment with a fresh id and then deleting it, as its
      author, restores the store exactly. */
  lemma CommentRoundTrip(s: Store, slug: string, identity: Option<UserId>, id: CommentId, body: string, createdAt: int)
    requires ArticleAt(s, slug).Some? && Caller(s, identity).Some?
    requires id !in s.comments && id !in s.articles[ArticleAt(s, slug).value].comments
    ensures CreateComment(s, slug, identity, id, body, createdAt).Done?
    ensures var s1 := CreateComment(s, slug, identity, id, body, createdAt).next;
            DeleteComment(s1, slug, id, identity).Done?
    ensures var s1 := After(s, CreateComment(s, slug, identity, id, body, createdAt));
            After(s1, DeleteComment(s1, slug, id, identity)) == s
  {
    var i := ArticleAt(s, slug).value;
    var a := s.articles[i];
    var s1 := CreateComment(s, slug, identity, id, body, createdAt).next;
    assert s1.articles[i].slug == slug;
    assert forall j :: 0 <= j < |s1.articles| && j != i ==> s1.articles[j] == s.articles[j];
    assert ArticleAt(s1, slug) == Some(i);
    var a1 := s1.articles[i];
    assert a1 == a.(comments := a.comments + [id]);
    WithoutAppended(a.comments, id);
    assert a1.(comments := Without(a1.comments, id)) == a;
    assert id in s1.comments && s1.comments[id].author == identity.value;
    var r2 := DeleteComment(s1, slug, id, identity);
    assert r2.Done?;
    assert r2.next.comments == s.comments;
    assert r2.next.articles == s1.articles[i := a] == s.articles;
  }

  /** `GET /:article/comments`: the article's comments, newest first. */
  function ListComments(s: Store, slug: string): (r: Result<seq<Comment>>)
    ensures ArticleAt(s, slug).None? <==> r == Err(NotFound)
    ensures ArticleAt(s, slug).Some? ==> r.Ok?
    ensures r.Ok? ==>
      ArticleAt(s, slug).Some? &&
      var found := Resolve(s.articles[ArticleAt(s, slug).value].comments, s.comments);
      && multiset(r.value) == multiset(found)
      && Descending(r.value, CommentCreatedAt)
  {
    match ArticleAt(s, slug)
    case None => Err(NotFound)
    case Some(i) =>
      var found := Resolve(s.articles[i].comments, s.comments);
      SortDescending(found, CommentCreatedAt);
      SortPermutes(found, CommentCreatedAt);
      Ok(Sort(found, CommentCreatedAt))
  }

  /** `POST /:article/passwords`: like comment creation; the new entry has
      no votes yet. */
  function CreatePassword(s: Store, slug: string, identity: Option<UserId>, id: PasswordId, value: string, createdAt: int): (r: Response<PasswordEntry>)
    ensures ArticleAt(s, slug).None? ==> r == Denied(NotFound)
    ensures ArticleAt(s, slug).Some? && Caller(s, identity).None? ==> r == Denied(Unauthorized)
    ensures ArticleAt(s, slug).Some? && Caller(s, identity).Some? ==> r.Done?
    ensures r.Done? ==>
      ArticleAt(s, slug).Some? && identity.Some? &&
      var i := ArticleAt(s, slug).value;
      var a := s.articles[i];
      && r.body == PasswordEntry(id, a.id, identity.value, value, createdAt, {}, {})
      && r.next.passwords == s.passwords[id := r.body]
      && r.next.articles == s.articles[i := a.(passwords := a.passwords + [id])]
      && r.next.users == s.users && r.next.comments == s.comments
  {
    match ArticleAt(s, slug)
    case None => Denied(NotFound)
    case Some(i) =>
      match Caller(s, identity)
      case None => Denied(Unauthorized)
      case Some(k) =>
        var a := s.articles[i];
        var p := PasswordEntry(id, a.id, s.users[k].id, value, createdAt, {}, {});
        Done(s.(passwords := s.passwords[id := p],
                articles := s.articles[i := a.(passwords := a.passwords + [id])]), p)
  }

  /** `DELETE /:article/passwords/:password`: like comment deletion. */
  function DeletePassword(s: Store, slug: string, id: PasswordId, identity: Option<UserId>): (r: Response<()>)
    ensures ArticleAt(s, slug).None? ==> r == Denied(NotFound)
    ensures ArticleAt(s, slug).Some? && id !in s.passwords ==> r == Denied(NotFound)
    ensures ArticleAt(s, slug).Some? && id in s.passwords && identity.None? ==> r == Denied(Unauthorized)
    ensures ArticleAt(s, slug).Some? && id in s.passwords && identity.Some? ==>
      (r == Denied(Forbidden) <==> s.passwords[id].author != identity.value)
    ensures (ArticleAt(s, slug).Some? && id in s.passwords && identity.Some? &&
             s.passwords[id].author == identity.value) ==> r.Done?
    ensures r.Done? ==>
      ArticleAt(s, slug).Some? &&
      var i := ArticleAt(s, slug).value;
      var a := s.articles[i];
      && id !in r.next.passwords
      && r.next.passwords == s.passwords - {id}
      && r.next.articles == s.articles[i := a.(passwords := Without(a.passwords, id))]
      && r.next.users == s.users && r.next.comments == s.comments
  {
    match ArticleAt(s, slug)
    case None => Denied(NotFound)
    case Some(i) =>
      if id !in s.passwords then Denied(NotFound)
      else if identity.None? then Denied(Unauthorized)
      else if s.passwords[id].author != identity.value then Denied(Forbidden)
      else
        var a := s.articles[i];
        Done(s.(passwords := s.passwords - {id},
                articles := s.articles[i := a.(passwords := Without(a.passwords, id))]), ())
  }

  /** Deleting an entry whose id occurs once in the article removes exactly
      that position; the other ids keep their order. */
  lemma DeletePasswordRemovesOnlyIt(s: Store, slug: string, id: PasswordId, identity: Option<UserId>, p: nat)
    requires ArticleAt(s, slug).Some?
    requires var a := s.articles[ArticleAt(s, slug).value];
             p < |a.passwords| && a.passwords[p] == id &&
             forall j :: 0 <= j < |a.passwords| && j != p ==> a.passwords[j] != id
    ensures var r := DeletePassword(s, slug, id, identity);
            var a := s.articles[ArticleAt(s, slug).value];
            r.Done? ==> r.next.articles[ArticleAt(s, slug).value].passwords == a.passwords[..p] + a.passwords[p + 1..]
  {
    WithoutSingle(s.articles[ArticleAt(s, slug).value].passwords, p);
  }

  /** Creating an entry with a fresh id and then deleting it, as its
      author, restores the store exactly. */
  lemma PasswordRoundTrip(s: Store, slug: string, identity: Option<UserId>, id: PasswordId, value: string, createdAt: int)
    requires ArticleAt(s, slug).Some? && Caller(s, identity).Some?
    requires id !in s.passwords && id !in s.articles[ArticleAt(s, slug).value].passwords
    ensures CreatePassword(s, slug, identity, id, value, createdAt).Done?
    ensures var s1 := CreatePassword(s, slug, identity, id, value, createdAt).next;
            DeletePassword(s1, slug, id, identity).Done?
    ensures var s1 := After(s, CreatePassword(s, slug, identity, id, value, createdAt));
            After(s1, DeletePassword(s1, slug, id, identity)) == s
  {
    var i := ArticleAt(s, slug).value;
    var a := s.articles[i];
    var s1 := CreatePassword(s, slug, identity, id, value, createdAt).next;
    assert s1.articles[i].slug == slug;
    assert forall j :: 0 <= j < |s1.articles| && j != i ==> s1.articles[j] == s.articles[j];
    assert ArticleAt(s1, slug) == Some(i);
    var a1 := s1.articles[i];
    assert a1 == a.(passwords := a.passwords + [id]);
    WithoutAppended(a.passwords, id);
    assert a1.(passwords := Without(a1.passwords, id)) == a;
    assert id in s1.passwords && s1.passwords[id].author == identity.value;
    var r2 := DeletePassword(s1, slug, id, identity);
    assert r2.Done?;
    assert r2.next.passwords == s.passwords;
    assert r2.next.articles == s1.articles[i := a] == s.articles;
  }

  /** Creating and deleting entries keeps the no-double-vote invariant. */
  lemma EntryLifecycleKeepsNoDoubleVotes(s: Store, slug: string, identity: Option<UserId>, id: PasswordId, value: string, createdAt: int)
    requires NoDoubleVotes(s)
    ensures NoDoubleVotes(After(s, CreatePassword(s, slug, identity, id, value, createdAt)))
    ensures NoDoubleVotes(After(s, DeletePassword(s, slug, id, identity)))
  {
  }

  /** `GET /:article/passwords`: 404 for an unknown slug, 401 without a
      token (an unknown token user is not refused). The entries are
      retrieved newest first, then stably sorted by rating, highest first. */
  function ListPasswords(s: Store, slug: string, identity: Option<UserId>): (r: Result<seq<PasswordEntry>>)
    ensures ArticleAt(s, slug).None? ==> r == Err(NotFound)
    ensures ArticleAt(s, slug).Some? && identity.None? ==> r == Err(Unauthorized)
    ensures ArticleAt(s, slug).Some? && identity.Some? ==> r.Ok?
  {
    match ArticleAt(s, slug)
    case None => Err(NotFound)
    case Some(i) =>
      if identity.None? then Err(Unauthorized)
      else Ok(Sort(Sort(Resolve(s.articles[i].passwords, s.passwords), EntryCreatedAt), Rating))
  }

  /** The password listing is a permutation of the article's resolvable
      entries, ordered so that ratings never increase; within each rating
      the entries keep the newest-first retrieval order, so entries of equal
      rating appear newest first. */
  lemma ListPasswordsOrder(s: Store, slug: string, identity: Option<UserId>)
    requires ArticleAt(s, slug).Some? && identity.Some?
    ensures var found := Resolve(s.articles[ArticleAt(s, slug).value].passwords, s.passwords);
            var listed := ListPasswords(s, slug, identity).value;
            && multiset(listed) == multiset(found)
            && Descending(listed, Rating)
            && (forall k :: Group(listed, Rating, k) == Group(Sort(found, EntryCreatedAt), Rating, k))
            && (forall k :: Descending(Group(listed, Rating, k), EntryCreatedAt))
  {
    var found := Resolve(s.articles[ArticleAt(s, slug).value].passwords, s.passwords);
    var byDate := Sort(found, EntryCreatedAt);
    var listed := Sort(byDate, Rating);
    SortDescending(byDate, Rating);
    SortDescending(found, EntryCreatedAt);
    SortPermutes(found, EntryCreatedAt);
    SortPermutes(byDate, Rating);
    forall k
      ensures Group(listed, Rating, k) == Group(byDate, Rating, k)
      ensures Descending(Group(listed, Rating, k), EntryCreatedAt)
    {
      SortKeepsGroups(byDate, Rating, k);
      GroupKeepsOrder(byDate, Rating, k, EntryCreatedAt);
    }
  }
}

=== FILE: common.dfy ===
/** Sequence and option utilities shared by the route model: first-match
    lookup (a `findOne`), Mongoose's array `pull`, order-keeping filtering,
    reference population, and MongoDB's skip/limit window. */
module Common {

  datatype Option<T> = None | Some(value: T)

  /** The position of the first element of `s` satisfying `p`, if any. */
  function FirstIndex<T>(s: seq<T>, p: T -> bool): (r: Option<nat>)
    ensures r.Some? ==> r.value < |s| && p(s[r.value])
    ensures r.Some? ==> forall j :: 0 <= j < r.value ==> !p(s[j])
    ensures r.None? ==> forall j :: 0 <= j < |s| ==> !p(s[j])
  {
    FirstIndexFrom(s, p, 0)
  }

  function FirstIndexFrom<T>(s: seq<T>, p: T -> bool, from: nat): (r: Option<nat>)
    requires from <= |s|
    ensures r.Some? ==> from <= r.value < |s| && p(s[r.value])
    ensures r.Some? ==> forall j :: from <= j < r.value ==> !p(s[j])
    ensures r.None? ==> forall j :: from <= j < |s| ==> !p(s[j])
    decreases |s| - from
  {
    if from == |s| then None
    else if p(s[from]) then Some(from)
    else FirstIndexFrom(s, p, from + 1)
  }

  /** Mongoose's array `remove`: every occurrence of `x` is pulled out and
      the remaining elements keep their order. */
  function Without<T(==,!new)>(s: seq<T>, x: T): (r: seq<T>)
    ensures x !in r
    ensures forall y :: y != x ==> (y in r <==> y in s)
  {
    if |s| == 0 then []
    else
      if s[0] == x then Without(s[1..], x)
      else [s[0]] + Without(s[1..], x)
  }

  /** The test "is not `x`". */
  function Other<T(==)>(x: T): T -> bool
  {
    (y: T) => y != x
  }

  /** Pulling keeps the order: it is the filter that drops exactly `x`. */
  lemma {:induction false} WithoutIsFilter<T(!new)>(s: seq<T>, x: T)
    ensures Without(s, x) == Filter(s, Other(x))
  {
    if |s| > 0 {
      WithoutIsFilter(s[1..], x);
    }
  }

  /** Pulling removes every copy of `x` and keeps every other element as
      often as it occurred. */
  lemma {:induction false} WithoutCounts<T(!new)>(s: seq<T>, x: T)
    ensures multiset(Without(s, x))[x] == 0
    ensures forall y :: y != x ==> multiset(Without(s, x))[y] == multiset(s)[y]
  {
    if |s| > 0 {
      WithoutCounts(s[1..], x);
      assert s == [s[0]] + s[1..];
    }
  }

  /** Pulling an element that is absent changes nothing. */
  lemma {:induction false} WithoutAbsent<T(!new)>(s: seq<T>, x: T)
    requires x !in s
    ensures Without(s, x) == s
  {
    if |s| > 0 {
      assert s[0] != x;
      WithoutAbsent(s[1..], x);
      assert s == [s[0]] + s[1..];
    }
  }

  /** Appending an element that was absent and then pulling it restores the
      sequence: the round trip of "create child" and "delete child". */
  lemma {:induction false} WithoutAppended<T(!new)>(s: seq<T>, x: T)
    requires x !in s
    ensures Without(s + [x], x) == s
  {
    if |s| == 0 {
      assert s + [x] == [x];
      assert [x][1..] == [];
    } else {
      assert (s + [x])[0] == s[0];
      assert (s + [x])[1..] == s[1..] + [x];
      WithoutAppended(s[1..], x);
      assert s == [s[0]] + s[1..];
    }
  }

  /** One step of the pull: the head is dropped exactly when it is `x`. */
  lemma WithoutCons<T(!new)>(y: T, t: seq<T>, x: T)
    ensures Without([y] + t, x) == if y == x then Without(t, x) else [y] + Without(t, x)
  {
    assert ([y] + t)[0] == y;
    assert ([y] + t)[1..] == t;
  }

  /** When `s[i]` occurs only at position `i`, pulling it removes exactly
      that position and leaves every other element where it was relative to
      the rest. */
  lemma {:induction false} WithoutSingle<T(!new)>(s: seq<T>, i: nat)
    requires i < |s|
    requires forall j :: 0 <= j < |s| && j != i ==> s[j] != s[i]
    ensures Without(s, s[i]) == s[..i] + s[i + 1..]
  {
    var x := s[i];
    var t := s[1..];
    assert s == [s[0]] + t;
    WithoutCons(s[0], t, x);
    if i == 0 {
      assert x !in t;
      WithoutAbsent(t, x);
    } else {
      assert s[0] != x;
      assert t[i - 1] == x;
      forall j | 0 <= j < |t| && j != i - 1
        ensures t[j] != t[i - 1]
      {
        assert t[j] == s[j + 1];
      }
      WithoutSingle(t, i - 1);
      assert Without(s, x) == [s[0]] + (t[..i - 1] + t[i..]);
      assert s[..i] == [s[0]] + t[..i - 1];
      assert s[i + 1..] == t[i..];
    }
  }

  /** The elements of `s` satisfying `p`, in their order in `s`. */
  function Filter<T(!new)>(s: seq<T>, p: T -> bool): (r: seq<T>)
    ensures forall y :: y in r ==> p(y) && y in s
    ensures forall i :: 0 <= i < |s| && p(s[i]) ==> s[i] in r
  {
    if |s| == 0 then []
    else
      var rest := Filter(s[1..], p);
      assert forall i :: 1 <= i < |s| ==> s[i] == s[1..][i - 1];
      if p(s[0]) then [s[0]] + rest else rest
  }

  /** Filtering keeps every satisfying element as often as it occurs and
      drops every other one. */
  lemma {:induction false} FilterCounts<T(!new)>(s: seq<T>, p: T -> bool)
    ensures forall y :: multiset(Filter(s, p))[y] == if p(y) then multiset(s)[y] else 0
  {
    if |s| > 0 {
      FilterCounts(s[1..], p);
      assert s == [s[0]] + s[1..];
    }
  }

  /** Mongoose `populate` of an array of references: each id that resolves
      is replaced by its document, ids that do not resolve are dropped, and
      the array order is kept. */
  function Resolve<K(!new), V>(ids: seq<K>, docs: map<K, V>): (r: seq<V>)
    ensures |r| <= |ids|
    ensures forall i :: 0 <= i < |ids| && ids[i] in docs ==> docs[ids[i]] in r
    ensures forall y :: y in r ==> exists i :: 0 <= i < |ids| && ids[i] in docs && docs[ids[i]] == y
    ensures (forall i :: 0 <= i < |ids| ==> ids[i] in docs) ==> |r| == |ids|
    // Exactly: the resolvable ids, in array order, each replaced by its document.
    ensures var known := Filter(ids, Resolvable(docs));
            && |r| == |known|
            && forall j :: 0 <= j < |r| ==> known[j] in docs && r[j] == docs[known[j]]
  {
    if |ids| == 0 then []
    else
      var rest := Resolve(ids[1..], docs);
      assert forall i :: 1 <= i < |ids| ==> ids[i] == ids[1..][i - 1];
      if ids[0] in docs then [docs[ids[0]]] + rest else rest
  }

  /** The test "has a document in `docs`". */
  function Resolvable<K, V>(docs: map<K, V>): K -> bool
  {
    (k: K) => k in docs
  }

  /** MongoDB's `skip(offset).limit(limit)` window over an ordered result:
      the first `offset` elements are skipped and at most `limit` of the
      rest are kept, where a limit of 0 means no limit. */
  function Page<T>(s: seq<T>, offset: nat, limit: nat): (r: seq<T>)
    ensures |r| == if offset >= |s| then 0
                   else if limit == 0 || limit > |s| - offset then |s| - offset
                   else limit
    ensures forall i :: 0 <= i < |r| ==> offset + i < |s| && r[i] == s[offset + i]
  {
    if offset >= |s| then []
    else if limit == 0 || limit >= |s| - offset then s[offset..]
    else s[offset..offset + limit]
  }

  /** A window at offset 0 is a prefix: the first `limit` elements, or all
      of them when there are fewer. */
  lemma PageFromStart<T>(s: seq<T>, limit: nat)
    requires limit > 0
    ensures Page(s, 0, limit) == s[..if |s| < limit then |s| else limit]
  {
  }

  /** Two consecutive pages of size `limit` together are the page of size
      `2 * limit` at the first offset: nothing is skipped, nothing repeats. */
  lemma PageConcat<T>(s: seq<T>, offset: nat, limit: nat)
    requires limit > 0
    ensures Page(s, offset, limit) + Page(s, offset + limit, limit) == Page(s, offset, 2 * limit)
  {
    var a := Page(s, offset, limit);
    var b := Page(s, offset + limit, limit);
    var c := Page(s, offset, 2 * limit);
    assert |a + b| == |c|;
    forall i | 0 <= i < |c|
      ensures (a + b)[i] == c[i]
    {
      if i >= |a| {
        assert |a| == limit;
        assert b[i - limit] == s[offset + limit + (i - limit)];
      }
    }
  }
}

=== FILE: listing.dfy ===
/** `GET /` and `GET /feed` of `routes/api/articles.js`: the article
    listing query. Optional tag, author and favoriter filters are combined
    with AND, the matches are ordered newest first, and the skip/limit
    window is applied; the count is taken before the window.

    Articles with equal timestamps keep their collection order (the sort is
    stable); the storage layer itself leaves such ties unspecified. */
module Listing {
  import opened Common
  import opened Sorting
  import opened Model

  const DefaultLimit: nat := 20
  const DefaultOffset: nat := 0

  /** The filter parameters of the query string of `GET /`; absent
      parameters are `None`. */
  datatype Filters = Filters(tag: Option<string>, author: Option<string>, favorited: Option<string>)

  /** The query string of `GET /`: its filters and its window. */
  datatype ArticleQuery = ArticleQuery(filters: Filters, limit: Option<nat>, offset: Option<nat>)

  /** A query-string value JavaScript treats as true: present and non-empty. */
  predicate Given(v: Option<string>)
  {
    v.Some? && v.value != ""
  }

  /** The resolved filter: a tag the article must carry, an author id it
      must have, a set of ids it must belong to. */
  datatype Criteria = Criteria(tag: Option<string>, author: Option<UserId>, within: Option<set<ArticleId>>)

  /** Resolves the query's user names. A tag is a filter whenever present,
      even empty. An author name that names nobody adds no restriction; a
      favoriter name that names nobody restricts to the empty set. Empty
      names are ignored. */
  function CriteriaFor(s: Store, q: Filters): (c: Criteria)
    ensures c.tag == q.tag
    ensures c.author.Some? <==> Given(q.author) && UserNamed(s, q.author.value).Some?
    ensures c.author.Some? ==> c.author.value == s.users[UserNamed(s, q.author.value).value].id
    ensures c.within.Some? <==> Given(q.favorited)
    ensures Given(q.favorited) && UserNamed(s, q.favorited.value).None? ==> c.within == Some({})
    ensures Given(q.favorited) && UserNamed(s, q.favorited.value).Some? ==>
      c.within == Some(s.users[UserNamed(s, q.favorited.value).value].favorites)
  {
    var author :=
      if !Given(q.author) then None
      else match UserNamed(s, q.author.value)
        case None => None
        case Some(k) => Some(s.users[k].id);
    var within :=
      if !Given(q.favorited) then None
      else match UserNamed(s, q.favorited.value)
        case None => Some({})
        case Some(k) => Some(s.users[k].favorites);
    Criteria(q.tag, author, within)
  }

  predicate Matches(c: Criteria, a: Article)
  {
    && (c.tag.Some? ==> c.tag.value in a.tagList)
    && (c.author.Some? ==> a.author == c.author.value)
    && (c.within.Some? ==> a.id in c.within.value)
  }

  function MatchesOf(c: Criteria): Article -> bool
  {
    (a: Article) => Matches(c, a)
  }

  function Limit(q: ArticleQuery): nat
  {
    if q.limit.Some? then q.limit.value else DefaultLimit
  }

  function Offset(q: ArticleQuery): nat
  {
    if q.offset.Some? then q.offset.value else DefaultOffset
  }

  /** Every article of the store that matches the filters, newest first. */
  function Ranked(s: Store, q: Filters): (r: seq<Article>)
    ensures forall a :: multiset(r)[a] == if Matches(CriteriaFor(s, q), a) then multiset(s.articles)[a] else 0
    ensures forall a :: a in r <==> a in s.articles && Matches(CriteriaFor(s, q), a)
    ensures Descending(r, ArticleCreatedAt)
    ensures |r| == |Filter(s.articles, MatchesOf(CriteriaFor(s, q)))|
  {
    var matched := Filter(s.articles, MatchesOf(CriteriaFor(s, q)));
    SortDescending(matched, ArticleCreatedAt);
    SortPermutes(matched, ArticleCreatedAt);
    FilterCounts(s.articles, MatchesOf(CriteriaFor(s, q)));
    var r := Sort(matched, ArticleCreatedAt);
    assert |r| == |multiset(r)| == |multiset(matched)| == |matched|;
    assert forall a :: a in r <==> a in multiset(r);
    assert forall a :: a in s.articles <==> a in multiset(s.articles);
    r
  }

  /** A window of a sequence holds only its elements and keeps its order. */
  lemma PageWithin<T>(s: seq<T>, offset: nat, limit: nat, key: T -> int)
    requires Descending(s, key)
    ensures forall x :: x in Page(s, offset, limit) ==> x in s
    ensures Descending(Page(s, offset, limit), key)
  {
    var w := Page(s, offset, limit);
    forall i, j | 0 <= i < j < |w|
      ensures key(w[i]) >= key(w[j])
    {
      assert w[i] == s[offset + i] && w[j] == s[offset + j];
    }
  }

  datatype Listing = Listing(articles: seq<Article>, articlesCount: nat)

  /** `GET /`: the window of the ranked matches and the number of matches.
      The count is that of the unsorted, unwindowed query; every listed
      article is a stored match, and the listing runs newest first. */
  function ListArticles(s: Store, q: ArticleQuery): (r: Listing)
    ensures r.articlesCount == |Filter(s.articles, MatchesOf(CriteriaFor(s, q.filters)))|
    ensures Limit(q) > 0 ==> |r.articles| <= Limit(q)
    ensures forall a :: a in r.articles ==> a in s.articles && Matches(CriteriaFor(s, q.filters), a)
    ensures Descending(r.articles, ArticleCreatedAt)
    ensures r.articles == Page(Ranked(s, q.filters), Offset(q), Limit(q))
  {
    var ranked := Ranked(s, q.filters);
    PageWithin(ranked, Offset(q), Limit(q), ArticleCreatedAt);
    Listing(Page(ranked, Offset(q), Limit(q)), |ranked|)
  }

  /** Without `limit` and `offset` the listing is the newest twenty matches. */
  lemma DefaultWindow(s: Store, q: ArticleQuery)
    requires q.limit.None? && q.offset.None?
    ensures var ranked := Ranked(s, q.filters);
            ListArticles(s, q).articles == ranked[..if |ranked| < 20 then |ranked| else 20]
  {
    PageFromStart(Ranked(s, q.filters), DefaultLimit);
  }

  /** A tag filter keeps exactly the matching articles that carry the tag. */
  lemma TagFilter(s: Store, q: ArticleQuery, t: string)
    requires q.filters.tag == Some(t)
    ensures forall a :: a in ListArticles(s, q).articles ==> t in a.tagList
    ensures !Given(q.filters.author) && !Given(q.filters.favorited) ==>
      forall a :: a in Ranked(s, q.filters) <==> a in s.articles && t in a.tagList
  {
  }

  /** A favoriter name that names no user yields no articles and count 0. */
  lemma UnknownFavoriter(s: Store, q: ArticleQuery)
    requires Given(q.filters.favorited) && UserNamed(s, q.filters.favorited.value).None?
    ensures ListArticles(s, q) == Listing([], 0)
  {
    assert multiset(Ranked(s, q.filters)) == multiset{};
  }

  /** An author name that names no user is ignored: the listing is the one
      without an author parameter. */
  lemma UnknownAuthorIgnored(s: Store, q: ArticleQuery)
    requires Given(q.filters.author) && UserNamed(s, q.filters.author.value).None?
    ensures ListArticles(s, q) == ListArticles(s, q.(filters := q.filters.(author := None)))
  {
    assert CriteriaFor(s, q.filters) == CriteriaFor(s, q.filters.(author := None));
  }

  /** Empty author or favoriter names are treated as absent. */
  lemma EmptyNamesIgnored(s: Store, q: ArticleQuery)
    requires q.filters.author == Some("") || q.filters.favorited == Some("")
    ensures var f := q.filters;
            ListArticles(s, q) ==
              ListArticles(s, q.(filters := f.(author := if f.author == Some("") then None else f.author,
                                              favorited := if f.favorited == Some("") then None else f.favorited)))
  {
    var f := q.filters;
    var f' := f.(author := if f.author == Some("") then None else f.author,
                 favorited := if f.favorited == Some("") then None else f.favorited);
    assert CriteriaFor(s, f) == CriteriaFor(s, f');
  }

  /** Pagination stability: for queries with the same filters, the pages
      at offset `o` and `o + l` (both of size `l`) together are the page of
      size `2 * l` at `o`: nothing is skipped and nothing repeats. */
  lemma ConsecutivePages(s: Store, q1: ArticleQuery, q2: ArticleQuery, q3: ArticleQuery)
    requires q2.filters == q1.filters && q3.filters == q1.filters
    requires Limit(q1) > 0 && Limit(q2) == Limit(q1) && Limit(q3) == 2 * Limit(q1)
    requires Offset(q2) == Offset(q1) + Limit(q1) && Offset(q3) == Offset(q1)
    ensures ListArticles(s, q1).articles + ListArticles(s, q2).articles == ListArticles(s, q3).articles
  {
    var ranked, o, l := Ranked(s, q1.filters), Offset(q1), Limit(q1);
    PageConcat(ranked, o, l);
    assert ListArticles(s, q1).articles == Page(ranked, o, l);
    assert ListArticles(s, q2).articles == Page(ranked, o + l, l);
    assert ListArticles(s, q3).articles == Page(ranked, o, 2 * l);
  }

  function AuthoredBy(following: set<UserId>): Article -> bool
  {
    (a: Article) => a.author in following
  }

  /** `GET /feed`: 401 without a token or when the token's user is gone;
      otherwise the articles whose author the caller follows, in collection
      order (the route asks for no sort), windowed, with their count. */
  function Feed(s: Store, identity: Option<UserId>, limit: Option<nat>, offset: Option<nat>): (r: Result<Listing>)
    ensures Caller(s, identity).None? <==> r == Err(Unauthorized)
    ensures Caller(s, identity).Some? ==> r.Ok?
    ensures r.Ok? ==>
      Caller(s, identity).Some? &&
      var following := s.users[Caller(s, identity).value].following;
      var followed := Filter(s.articles, AuthoredBy(following));
      && (forall a :: a in r.value.articles ==> a in s.articles && a.author in following)
      && r.value.articlesCount == |followed|
      && (var lim := if limit.Some? then limit.value else DefaultLimit;
          lim > 0 ==> |r.value.articles| <= lim)
      && r.value.articles == Page(followed, if offset.Some? then offset.value else DefaultOffset,
                                  if limit.Some? then limit.value else DefaultLimit)
  {
    match Caller(s, identity)
    case None => Err(Unauthorized)
    case Some(k) =>
      var followed := Filter(s.articles, AuthoredBy(s.users[k].following));
      var lim := if limit.Some? then limit.value else DefaultLimit;
      var off := if offset.Some? then offset.value else DefaultOffset;
      var items := Page(followed, off, lim);
      assert forall i :: 0 <= i < |items| ==> items[i] in followed;
      Ok(Listing(items, |followed|))
  }
}

=== FILE: model.dfy ===
/** The in-memory store the article router reads and writes, the entities
    it holds, the lookups the router's parameter loaders and `findById` /
    `findOne` calls perform, and the outcomes a route can answer with. */
module Model {
  import opened Common

  type UserId = nat
  type ArticleId = nat
  type CommentId = nat
  type PasswordId = nat

  datatype User = User(
    id: UserId,
    username: string,
    favorites: set<ArticleId>,
    following: set<UserId>)

  datatype Article = Article(
    id: ArticleId,
    slug: string,
    author: UserId,
    title: string,
    description: string,
    body: string,
    tagList: seq<string>,
    createdAt: int,
    comments: seq<CommentId>,
    passwords: seq<PasswordId>,
    favoritesCount: nat)

  datatype Comment = Comment(
    id: CommentId,
    article: ArticleId,
    author: UserId,
    body: string,
    createdAt: int)

  /** A password entry: a candidate value attached to an article, with the
      users who approve of it and the users who disapprove of it. */
  datatype PasswordEntry = PasswordEntry(
    id: PasswordId,
    article: ArticleId,
    author: UserId,
    value: string,
    createdAt: int,
    approvals: set<UserId>,
    disapprovals: set<UserId>)

  /** Articles and users are kept in collection order (the order a scan
      meets them); comments and password entries are looked up by id. */
  datatype Store = Store(
    articles: seq<Article>,
    users: seq<User>,
    comments: map<CommentId, Comment>,
    passwords: map<PasswordId, PasswordEntry>)

  /** The derived rating of an entry, used only to order listings. */
  function Rating(p: PasswordEntry): int
  {
    |p.approvals| - |p.disapprovals|
  }

  function ArticleCreatedAt(a: Article): int { a.createdAt }
  function CommentCreatedAt(c: Comment): int { c.createdAt }
  function EntryCreatedAt(p: PasswordEntry): int { p.createdAt }

  /** The refusals a route answers with instead of a body: HTTP 401
      (no token, or the token's user is gone), 403 (not the author) and
      404 (no document for a URL parameter). `Crashed` is a handler that
      throws before it writes anything: a 500 where the promise chain ends
      in `.catch(next)`, no response at all where it has no `.catch`. */
  datatype Denial = Unauthorized | Forbidden | NotFound | Crashed

  /** The answer of a read-only route. */
  datatype Result<T> = Ok(value: T) | Err(denial: Denial)

  /** The answer of a mutating route: the store it leaves behind and the
      response body, or a refusal, which leaves the store as it was. */
  datatype Response<T> = Done(next: Store, body: T) | Denied(denial: Denial)

  /** The store after a mutating route has answered. */
  function After<T>(s: Store, r: Response<T>): Store
  {
    if r.Done? then r.next else s
  }

  /** The `:article` parameter loader: the first article with the slug. */
  function ArticleAt(s: Store, slug: string): (r: Option<nat>)
    ensures r.Some? ==> r.value < |s.articles| && s.articles[r.value].slug == slug
    ensures r.Some? ==> forall j :: 0 <= j < r.value ==> s.articles[j].slug != slug
    ensures r.None? <==> forall j :: 0 <= j < |s.articles| ==> s.articles[j].slug != slug
  {
    FirstIndex(s.articles, (a: Article) => a.slug == slug)
  }

  /** `User.findById`: the position of the user with the id. */
  function UserAt(s: Store, id: UserId): (r: Option<nat>)
    ensures r.Some? ==> r.value < |s.users| && s.users[r.value].id == id
    ensures r.Some? ==> forall j :: 0 <= j < r.value ==> s.users[j].id != id
    ensures r.None? <==> forall j :: 0 <= j < |s.users| ==> s.users[j].id != id
  {
    FirstIndex(s.users, (u: User) => u.id == id)
  }

  /** `User.findOne({ username })`: the position of the user with the name. */
  function UserNamed(s: Store, name: string): (r: Option<nat>)
    ensures r.Some? ==> r.value < |s.users| && s.users[r.value].username == name
    ensures r.Some? ==> forall j :: 0 <= j < r.value ==> s.users[j].username != name
    ensures r.None? <==> forall j :: 0 <= j < |s.users| ==> s.users[j].username != name
  {
    FirstIndex(s.users, (u: User) => u.username == name)
  }

  /** The acting user of a route that requires a token and then loads the
      token's user: none without a token, none when the user is gone. */
  function Caller(s: Store, identity: Option<UserId>): (r: Option<nat>)
    ensures r.Some? ==> identity.Some? && r.value < |s.users| && s.users[r.value].id == identity.value
    ensures r.None? <==> identity.None? || UserAt(s, identity.value).None?
  {
    if identity.None? then None else UserAt(s, identity.value)
  }

  /** Article ids identify articles. */
  predicate UniqueArticleIds(s: Store)
  {
    forall i, j :: 0 <= i < j < |s.articles| ==> s.articles[i].id != s.articles[j].id
  }
}

=== FILE: sorting.dfy ===
/** A stable sort, highest key first, and the facts the listings need from
    it: it permutes its input, it leaves keys non-increasing, and elements
    with equal keys keep their input order. */
module Sorting {

  /** Keys never increase along `s`. */
  predicate Descending<T>(s: seq<T>, key: T -> int)
  {
    forall i, j :: 0 <= i < j < |s| ==> key(s[i]) >= key(s[j])
  }

  /** Places `x` in front of the first element whose key is not larger than
      its own, so `x` stays ahead of every element with an equal key. */
  function Insert<T>(x: T, s: seq<T>, key: T -> int): seq<T>
  {
    if |s| == 0 || key(s[0]) <= key(x) then [x] + s
    else
      [s[0]] + Insert(x, s[1..], key)
  }

  /** Insertion sort from the back: the head of the input is inserted ahead
      of all equal keys of the already sorted tail, which makes it stable. */
  function Sort<T>(s: seq<T>, key: T -> int): seq<T>
  {
    if |s| == 0 then []
    else
      Insert(s[0], Sort(s[1..], key), key)
  }

  /** The elements of `s` whose key is `k`, in their order in `s`. */
  function Group<T>(s: seq<T>, key: T -> int, k: int): seq<T>
  {
    if |s| == 0 then []
    else
      (if key(s[0]) == k then [s[0]] else []) + Group(s[1..], key, k)
  }

  /** Insertion adds exactly the one element. */
  lemma {:induction false} InsertPermutes<T>(x: T, s: seq<T>, key: T -> int)
    ensures multiset(Insert(x, s, key)) == multiset(s) + multiset{x}
  {
    if |s| > 0 && key(s[0]) > key(x) {
      InsertPermutes(x, s[1..], key);
      assert s == [s[0]] + s[1..];
    }
  }

  /** The sort is a permutation of its input. */
  lemma {:induction false} SortPermutes<T>(s: seq<T>, key: T -> int)
    ensures multiset(Sort(s, key)) == multiset(s)
  {
    if |s| > 0 {
      SortPermutes(s[1..], key);
      InsertPermutes(s[0], Sort(s[1..], key), key);
      assert s == [s[0]] + s[1..];
    }
  }

  /** Every element of a group has the group's key. */
  lemma {:induction false} GroupKeys<T>(s: seq<T>, key: T -> int, k: int)
    ensures forall i :: 0 <= i < |Group(s, key, k)| ==> key(Group(s, key, k)[i]) == k
  {
    if |s| > 0 {
      GroupKeys(s[1..], key, k);
      var g := Group(s[1..], key, k);
      if key(s[0]) == k {
        assert forall i :: 0 < i < |g| + 1 ==> ([s[0]] + g)[i] == g[i - 1];
      }
    }
  }

  /** A group takes each element of its source at most as often as the
      source holds it. */
  lemma {:induction false} GroupWithin<T>(s: seq<T>, key: T -> int, k: int)
    ensures multiset(Group(s, key, k)) <= multiset(s)
  {
    if |s| > 0 {
      GroupWithin(s[1..], key, k);
      assert s == [s[0]] + s[1..];
    }
  }

  /** Prepending an element whose key bounds every key of a descending
      sequence keeps it descending. */
  lemma PrependDescending<T>(x: T, t: seq<T>, key: T -> int)
    requires Descending(t, key)
    requires forall i :: 0 <= i < |t| ==> key(t[i]) <= key(x)
    ensures Descending([x] + t, key)
  {
    var r := [x] + t;
    forall i, j | 0 <= i < j < |r|
      ensures key(r[i]) >= key(r[j])
    {
      assert r[j] == t[j - 1];
      if i > 0 {
        assert r[i] == t[i - 1];
      }
    }
  }

  /** Every element of a sequence whose multiset is bounded by that of
      `[y] + u` is `y` or an element of `u`. */
  lemma BoundedByMultiset<T>(r: seq<T>, y: T, u: seq<T>, key: T -> int, bound: int)
    requires multiset(r) <= multiset(u) + multiset{y}
    requires key(y) <= bound
    requires forall i :: 0 <= i < |u| ==> key(u[i]) <= bound
    ensures forall i :: 0 <= i < |r| ==> key(r[i]) <= bound
  {
    forall i | 0 <= i < |r|
      ensures key(r[i]) <= bound
    {
      assert r[i] in multiset(r);
      if r[i] != y {
        assert r[i] in multiset(u);
        var k :| 0 <= k < |u| && u[k] == r[i];
      }
    }
  }

  lemma {:induction false} InsertDescending<T>(x: T, s: seq<T>, key: T -> int)
    requires Descending(s, key)
    ensures Descending(Insert(x, s, key), key)
  {
    if |s| == 0 || key(s[0]) <= key(x) {
      PrependDescending(x, s, key);
    } else {
      var tail := s[1..];
      assert Descending(tail, key) by {
        forall i, j | 0 <= i < j < |tail|
          ensures key(tail[i]) >= key(tail[j])
        {
          assert tail[i] == s[i + 1] && tail[j] == s[j + 1];
        }
      }
      InsertDescending(x, tail, key);
      var t := Insert(x, tail, key);
      InsertPermutes(x, tail, key);
      forall i | 0 <= i < |tail|
        ensures key(tail[i]) <= key(s[0])
      {
        assert tail[i] == s[i + 1];
      }
      BoundedByMultiset(t, x, tail, key, key(s[0]));
      PrependDescending(s[0], t, key);
    }
  }

  /** The sort leaves keys non-increasing. */
  lemma {:induction false} SortDescending<T>(s: seq<T>, key: T -> int)
    ensures Descending(Sort(s, key), key)
  {
    if |s| > 0 {
      SortDescending(s[1..], key);
      InsertDescending(s[0], Sort(s[1..], key), key);
    }
  }

  /** One step of grouping: the head is kept exactly when its key is `k`. */
  lemma GroupCons<T>(y: T, t: seq<T>, key: T -> int, k: int)
    ensures Group([y] + t, key, k) == (if key(y) == k then [y] else []) + Group(t, key, k)
  {
    assert ([y] + t)[0] == y;
    assert ([y] + t)[1..] == t;
  }

  /** One step of insertion: `x` goes first, or the head stays first. */
  lemma InsertCons<T>(x: T, y: T, t: seq<T>, key: T -> int)
    ensures Insert(x, [y] + t, key) == if key(y) <= key(x) then [x, y] + t else [y] + Insert(x, t, key)
  {
    assert ([y] + t)[0] == y;
    assert ([y] + t)[1..] == t;
  }

  /** The step of `InsertGroup` where `x` passes a head `y` with a larger key. */
  lemma InsertGroupBehind<T>(x: T, y: T, u: seq<T>, key: T -> int, k: int)
    requires key(y) > key(x)
    requires Group(Insert(x, u, key), key, k) == (if key(x) == k then [x] else []) + Group(u, key, k)
    ensures Group(Insert(x, [y] + u, key), key, k) == (if key(x) == k then [x] else []) + Group([y] + u, key, k)
  {
    var t := Insert(x, u, key);
    InsertCons(x, y, u, key);
    GroupCons(y, t, key, k);
    GroupCons(y, u, key, k);
    if key(y) == k {
      assert key(x) != k;
      assert Group(t, key, k) == Group(u, key, k);
      assert Group([y] + t, key, k) == [y] + Group(u, key, k);
    } else {
      assert Group([y] + t, key, k) == Group(t, key, k);
      assert Group([y] + u, key, k) == Group(u, key, k);
    }
  }

  /** Inserting `x` adds it at the head of its key's group and leaves every
      other group alone. */
  lemma {:induction false} InsertGroup<T>(x: T, s: seq<T>, key: T -> int, k: int)
    ensures Group(Insert(x, s, key), key, k) == (if key(x) == k then [x] else []) + Group(s, key, k)
  {
    if |s| == 0 || key(s[0]) <= key(x) {
      assert Insert(x, s, key) == [x] + s;
      GroupCons(x, s, key, k);
    } else {
      InsertGroup(x, s[1..], key, k);
      InsertGroupBehind(x, s[0], s[1..], key, k);
      assert s == [s[0]] + s[1..];
    }
  }

  /** Stability: for every key, the elements with that key appear in the
      sorted result in exactly their input order. */
  lemma {:induction false} SortKeepsGroups<T>(s: seq<T>, key: T -> int, k: int)
    ensures Group(Sort(s, key), key, k) == Group(s, key, k)
  {
    if |s| > 0 {
      SortKeepsGroups(s[1..], key, k);
      InsertGroup(s[0], Sort(s[1..], key), key, k);
    }
  }

  /** A group is a subsequence, so it keeps any order its source had. */
  lemma {:induction false} GroupKeepsOrder<T>(s: seq<T>, key: T -> int, k: int, order: T -> int)
    requires Descending(s, order)
    ensures Descending(Group(s, key, k), order)
  {
    if |s| > 0 {
      var tail := s[1..];
      assert Descending(tail, order) by {
        forall i, j | 0 <= i < j < |tail|
          ensures order(tail[i]) >= order(tail[j])
        {
          assert tail[i] == s[i + 1] && tail[j] == s[j + 1];
        }
      }
      GroupKeepsOrder(tail, key, k, order);
      var g := Group(tail, key, k);
      if key(s[0]) == k {
        forall i | 0 <= i < |tail|
          ensures order(tail[i]) <= order(s[0])
        {
          assert tail[i] == s[i + 1];
        }
        GroupWithin(tail, key, k);
        BoundedByMultiset(g, s[0], tail, order, order(s[0]));
        PrependDescending(s[0], g, order);
      } else {
        assert Group(s, key, k) == g;
      }
    }
  }
}

=== FILE: votes.dfy ===
/** The endorsement state machine of password entries: the four vote routes
    of `routes/api/articles.js` as compositions of the entry's primitive set
    operations, and the invariant they keep — no user both approves and
    disapproves of an entry.

    The primitives (`approve`, `unapprove`, `disapprove`, `undisapprove`)
    belong to the Password model, which is not part of this model. They are
    taken here to be plain set insertion into, and removal from, the entry's
    `approvals` or `disapprovals` set, each applied atomically. */
module Votes {
  import opened Common
  import opened Model

  function AddApproval(p: PasswordEntry, u: UserId): PasswordEntry
  {
    p.(approvals := p.approvals + {u})
  }

  function DropApproval(p: PasswordEntry, u: UserId): PasswordEntry
  {
    p.(approvals := p.approvals - {u})
  }

  function AddDisapproval(p: PasswordEntry, u: UserId): PasswordEntry
  {
    p.(disapprovals := p.disapprovals + {u})
  }

  function DropDisapproval(p: PasswordEntry, u: UserId): PasswordEntry
  {
    p.(disapprovals := p.disapprovals - {u})
  }

  /** The four vote routes: POST and DELETE on `approve` and `disapprove`. */
  datatype Vote = Approve | Unapprove | Disapprove | Undisapprove

  /** The effect of one vote route on the entry, as the sequence of
      primitives the route's handler runs. */
  function Cast(p: PasswordEntry, u: UserId, v: Vote): (r: PasswordEntry)
    // Only the two vote sets change, and only in the acting user's membership.
    ensures r == p.(approvals := r.approvals, disapprovals := r.disapprovals)
    ensures forall w :: w != u ==> (w in r.approvals <==> w in p.approvals)
    ensures forall w :: w != u ==> (w in r.disapprovals <==> w in p.disapprovals)
    // Whatever the prior state, the acting user ends up in at most one set.
    ensures !(u in r.approvals && u in r.disapprovals)
    ensures v == Approve ==> u in r.approvals && u !in r.disapprovals
    ensures v == Disapprove ==> u in r.disapprovals && u !in r.approvals
    ensures v == Unapprove ==> u !in r.approvals && r.disapprovals == p.disapprovals
    ensures v == Undisapprove ==> u !in r.disapprovals && r.approvals == p.approvals
  {
    match v
    case Approve => DropDisapproval(AddApproval(p, u), u)
    case Unapprove => DropApproval(p, u)
    case Disapprove => DropApproval(AddDisapproval(p, u), u)
    case Undisapprove => DropDisapproval(p, u)
  }

  /** The central invariant: nobody is in both sets of the entry. */
  predicate Exclusive(p: PasswordEntry)
  {
    p.approvals !! p.disapprovals
  }

  /** Every vote route keeps the invariant. */
  lemma CastKeepsExclusive(p: PasswordEntry, u: UserId, v: Vote)
    requires Exclusive(p)
    ensures Exclusive(Cast(p, u, v))
  {
    var r := Cast(p, u, v);
    forall w | w in r.approvals
      ensures w !in r.disapprovals
    {
      if w != u {
        assert w in p.approvals;
      }
    }
  }

  /** Repeating a vote route changes nothing further. */
  lemma CastIdempotent(p: PasswordEntry, u: UserId, v: Vote)
    ensures Cast(Cast(p, u, v), u, v) == Cast(p, u, v)
  {
    var once := Cast(p, u, v);
    var twice := Cast(once, u, v);
    assert twice.approvals == once.approvals;
    assert twice.disapprovals == once.disapprovals;
  }

  /** Approve and Disapprove overwrite whatever the user voted before: only
      the last of them counts. */
  lemma LastVoteWins(p: PasswordEntry, u: UserId, first: Vote, last: Vote)
    requires last == Approve || last == Disapprove
    ensures Cast(Cast(p, u, first), u, last) == Cast(p, u, last)
  {
    var a := Cast(Cast(p, u, first), u, last);
    var b := Cast(p, u, last);
    assert a.approvals == b.approvals;
    assert a.disapprovals == b.disapprovals;
  }

  /** The tagged view of a (user, entry) pair that the two sets encode. */
  datatype Standing = Neutral | Approving | Disapproving

  function StandingOf(p: PasswordEntry, u: UserId): Standing
  {
    if u in p.approvals then Approving
    else if u in p.disapprovals then Disapproving
    else Neutral
  }

  /** The transition table of the state machine, written independently of
      the two-set representation. */
  function Next(st: Standing, v: Vote): Standing
  {
    match v
    case Approve => Approving
    case Disapprove => Disapproving
    case Unapprove => if st == Approving then Neutral else st
    case Undisapprove => if st == Disapproving then Neutral else st
  }

  /** On an entry that keeps the invariant, the set operations of each route
      move the acting user exactly as the transition table says and leave
      every other user's standing as it was. */
  lemma CastFollowsTable(p: PasswordEntry, u: UserId, v: Vote, w: UserId)
    requires Exclusive(p)
    ensures StandingOf(Cast(p, u, v), w) == if w == u then Next(StandingOf(p, u), v) else StandingOf(p, w)
  {
    assert u in p.approvals ==> u !in p.disapprovals;
  }

  /** What one user's standing contributes to the rating. */
  function Weight(st: Standing): int
  {
    match st
    case Neutral => 0
    case Approving => 1
    case Disapproving => -1
  }

  lemma AddSize(a: set<UserId>, u: UserId)
    ensures |a + {u}| == |a| + (if u in a then 0 else 1)
  {
    if u in a {
      assert a + {u} == a;
    }
  }

  lemma DropSize(a: set<UserId>, u: UserId)
    ensures |a - {u}| == |a| - (if u in a then 1 else 0)
  {
    if u !in a {
      assert a - {u} == a;
    }
  }

  /** Rating correctness: after any vote route the rating has moved by the
      change in the acting user's contribution and nothing else. */
  lemma CastShiftsRating(p: PasswordEntry, u: UserId, v: Vote)
    requires Exclusive(p)
    ensures Rating(Cast(p, u, v)) == Rating(p) - Weight(StandingOf(p, u)) + Weight(Next(StandingOf(p, u), v))
  {
    var a, d := p.approvals, p.disapprovals;
    assert u in a ==> u !in d;
    match v
    case Approve =>
      assert Cast(p, u, v).approvals == a + {u} && Cast(p, u, v).disapprovals == d - {u};
      AddSize(a, u);
      DropSize(d, u);
    case Disapprove =>
      assert Cast(p, u, v).approvals == a - {u} && Cast(p, u, v).disapprovals == d + {u};
      AddSize(d, u);
      DropSize(a, u);
    case Unapprove =>
      assert Cast(p, u, v).approvals == a - {u} && Cast(p, u, v).disapprovals == d;
      DropSize(a, u);
    case Undisapprove =>
      assert Cast(p, u, v).approvals == a && Cast(p, u, v).disapprovals == d - {u};
      DropSize(d, u);
  }

  /** A vote route on the store. The `:article` and `:password` loaders
      answer 404 first, then a missing token or a token whose user is gone
      answers 401. The entry is not required to belong to the article, and
      the response body is the article, not the entry. */
  function VoteRoute(s: Store, slug: string, entry: PasswordId, identity: Option<UserId>, v: Vote): (r: Response<Article>)
    ensures ArticleAt(s, slug).None? ==> r == Denied(NotFound)
    ensures ArticleAt(s, slug).Some? && entry !in s.passwords ==> r == Denied(NotFound)
    ensures ArticleAt(s, slug).Some? && entry in s.passwords && Caller(s, identity).None? ==> r == Denied(Unauthorized)
    ensures ArticleAt(s, slug).Some? && entry in s.passwords && Caller(s, identity).Some? ==> r.Done?
    ensures r.Done? ==> ArticleAt(s, slug).Some? && r.body == s.articles[ArticleAt(s, slug).value]
    ensures r.Done? ==>
      && identity.Some? && entry in s.passwords
      && r.next.articles == s.articles && r.next.users == s.users && r.next.comments == s.comments
      && r.next.passwords.Keys == s.passwords.Keys
      && r.next.passwords[entry] == Cast(s.passwords[entry], identity.value, v)
      && (forall q :: q in s.passwords && q != entry ==> r.next.passwords[q] == s.passwords[q])
  {
    match ArticleAt(s, slug)
    case None => Denied(NotFound)
    case Some(ai) =>
      if entry !in s.passwords then Denied(NotFound)
      else
        match Caller(s, identity)
        case None => Denied(Unauthorized)
        case Some(ui) =>
          var u := s.users[ui].id;
          Done(s.(passwords := s.passwords[entry := Cast(s.passwords[entry], u, v)]), s.articles[ai])
  }

  /** No entry of the store has a user in both of its sets. */
  predicate NoDoubleVotes(s: Store)
  {
    forall q :: q in s.passwords ==> Exclusive(s.passwords[q])
  }

  lemma VoteRouteKeepsNoDoubleVotes(s: Store, slug: string, entry: PasswordId, identity: Option<UserId>, v: Vote)
    requires NoDoubleVotes(s)
    ensures NoDoubleVotes(After(s, VoteRoute(s, slug, entry, identity, v)))
  {
    var r := VoteRoute(s, slug, entry, identity, v);
    if r.Done? {
      CastKeepsExclusive(s.passwords[entry], identity.value, v);
    }
  }

  /** Sending the same vote request twice leaves the store as sending it once. */
  lemma VoteRouteIdempotent(s: Store, slug: string, entry: PasswordId, identity: Option<UserId>, v: Vote)
    ensures var s1 := After(s, VoteRoute(s, slug, entry, identity, v));
            After(s1, VoteRoute(s1, slug, entry, identity, v)) == s1
  {
    var r := VoteRoute(s, slug, entry, identity, v);
    if r.Done? {
      var s1 := r.next;
      assert ArticleAt(s1, slug) == ArticleAt(s, slug);
      assert Caller(s1, identity) == Caller(s, identity);
      CastIdempotent(s.passwords[entry], identity.value, v);
      var r2 := VoteRoute(s1, slug, entry, identity, v);
      assert r2.next.passwords == s1.passwords;
    }
  }

  datatype VoteRequest = VoteRequest(slug: string, entry: PasswordId, identity: Option<UserId>, vote: Vote)

  /** The store after a sequence of vote requests, each answered in turn;
      refused requests leave the store as it was. */
  function Replay(s: Store, requests: seq<VoteRequest>): (r: Store)
    ensures r.articles == s.articles && r.users == s.users && r.comments == s.comments
    ensures r.passwords.Keys == s.passwords.Keys
    decreases |requests|
  {
    if |requests| == 0 then s
    else
      var q := requests[0];
      Replay(After(s, VoteRoute(s, q.slug, q.entry, q.identity, q.vote)), requests[1..])
  }

  /** Mutual exclusion: after any sequence of vote routes no user is both in
      the approvals and in the disapprovals of any entry. */
  lemma {:induction false} ReplayKeepsNoDoubleVotes(s: Store, requests: seq<VoteRequest>)
    requires NoDoubleVotes(s)
    ensures NoDoubleVotes(Replay(s, requests))
    decreases |requests|
  {
    if |requests| > 0 {
      var q := requests[0];
      VoteRouteKeepsNoDoubleVotes(s, q.slug, q.entry, q.identity, q.vote);
      ReplayKeepsNoDoubleVotes(After(s, VoteRoute(s, q.slug, q.entry, q.identity, q.vote)), requests[1..]);
    }
  }
}
